=== FILE: README.md ===
# Caption layout of the crab-rave bot, in Dafny

This project models the text-layout core of the crab-rave bot (`bot.py`).
The bot overlays a user's caption on a chosen style's base image or video.
The model covers four parts:

- **Word wrap** (`word_wrap`). Text whose multi-line bounding box fits the
  canvas width is kept as it is. Otherwise each hard line is kept when it
  fits. A hard line that does not fit is re-flowed greedily, word by word.
- **Caption placement** (`render_text`). The colours are chosen by canvas
  mode. A missing text counts as empty. The origin is the canvas centre
  less half the wrapped text's measured width and height.
- **Style lookup.** `make_image` and `make_video` take the first catalog
  entry with the requested id.
- **Request dispatch** (`serve_render`). It refuses an unknown style id,
  serves `png` as `image/png` and `mp4` as `video/mp4`, and refuses any
  other extension. A video request fails when the encoder exits with a
  non-zero status; the encoder itself is a parameter that yields that
  status.

Font measurement is left uninterpreted. `Wrap.Font` carries two functions:

- `textBBox` is the multi-line bounding box (`multiline_textbbox`). It is used
  for the whole-text check and for centring.
- `textWidth` is the single-line width (`textsize`). It is used per hard line
  and per candidate line.

The model assumes no relation between the two and no monotonicity. Every
width test in the code is a strict `>`, so a width equal to the limit fits.

Python's string helpers are modelled in `Text`:

- `str.split()` separates words at the six ASCII whitespace characters
  (space, tab, `\n`, `\r`, `\x0b`, `\x0c`) and drops empty pieces.
- `str.splitlines()` breaks lines at `\n` only. A final `\n` does not open an
  empty last line, so `""` gives no lines and `"a\n"` gives `["a"]`.
- `sep.join(parts)` is `Text.Join`.

The re-flow of one overflowing hard line has two definitions:

- `Wrap.Flow` is the reference definition. It works on groups of words.
- `Wrap.ReflowLoop` and `Wrap.WordWrapLoop` mirror the code's loops: the
  running `new_line` and `last_line` strings and the single-space join. Both
  are proved to compute exactly the reference.

The code has one quirk, and the model reproduces it. Suppose the first word
of an overflowing hard line is wider than the limit. Then the still-empty
`last_line` is committed, so an empty line comes before that word
(`Wrap.ReflowBlankLine`).

Three choices of the code that the model keeps as they are:

- `textsize` and `multiline_textbbox` are two different metrics, and the
  model keeps both.
- `make_video` sizes the overlay like the style's base image
  (bot.py:127-129), not like the video (`Serve.MakeVideoOverlay`).
- Lookup takes the first entry with the id (bot.py:113, 126), whether or
  not other entries share it (`Styles.Lookup`).

## Model

| member | source | states |
|---|---|---|
| Text.WordsAreWords | bot.py:70 | `line.split()` yields only non-empty words that contain no separator |
| Text.WordsSplitAt | bot.py:70 | a separator splits the words of a string in two: the words before it, then the words after it, none merged across it |
| Text.WordsOfJoinedWords | bot.py:70-73 | joining words with single spaces and splitting again gives back the same words, in order |
| Text.SplitLinesNoBreaks | bot.py:63 | `text.splitlines()` yields hard lines that contain no line break, and non-empty text yields at least one line |
| Text.JoinSplitLines | bot.py:63-83 | joining a text's hard lines with `\n` restores the text, unless the text ends in a break |
| Text.NoBreakMeaning | bot.py:63 | a hard line as the model checks it (its break-free prefix is all of it) is exactly a string containing no `\n` |
| Text.WordsOfSplitLines | bot.py:63-70 | the words of the hard lines, read in order, are the words of the whole text |
| Text.JoinSplitLinesTrailing | bot.py:63-83 | a text ending in `\n` loses exactly that final break when its hard lines are joined again |
| Text.SplitJoinLines | bot.py:63-83 | splitting `\n`-joined break-free lines gives the lines back, unless the last line is empty |
| Wrap.FlowConcat | bot.py:70-80 | the re-flowed groups, read in order, hold exactly the words of the hard line: none dropped, duplicated or reordered |
| Wrap.FlowFits | bot.py:73-78 | every group of two or more words passed the width test, so its joined line fits |
| Wrap.FlowPrefixFits | bot.py:70-78 | a word joins a group only when the candidate it makes fits, so every prefix of two or more words of a group fits |
| Wrap.FlowGreedy | bot.py:71-77 | a group is committed only because the next group's first word, appended to it, made the candidate too wide |
| Wrap.FlowEmptyGroup | bot.py:68-80 | an empty group is committed exactly when the first word alone is too wide; it comes first and the next group starts with that word; no words give no groups |
| Wrap.JoinCandidate | bot.py:71-73 | appending a word to the space-joined line (with a space only when the line is non-empty) is the join of the extended group |
| Wrap.ReflowPreservesWords | bot.py:70-80 | the words of the re-flowed lines are exactly `line.split()`, and each line is its words joined by single spaces |
| Wrap.ReflowFits | bot.py:73-78 | a re-flowed line wider than the limit holds at most one word |
| Wrap.ReflowGreedy | bot.py:71-77 | each re-flowed line after the first starts with the word whose addition made the previous candidate too wide |
| Wrap.ReflowPrefixesFit | bot.py:70-78 | in every re-flowed line, each run of its first two or more words (a candidate `new_line` the loop kept) is within the limit |
| Wrap.ReflowBlankLine | bot.py:68-80 | an overflowing hard line emits an empty line exactly when its first word is too wide, first and just before that word; a hard line without words emits nothing |
| Wrap.WrapLinesSnoc | bot.py:65-82 | one more pass of the hard-line loop appends exactly that line's block to the output |
| Wrap.WrapLinesAppend | bot.py:65-83 | wrapping distributes over concatenation of hard lines, so blocks of different hard lines never merge |
| Wrap.HardLineBlock | bot.py:65-83 | each hard line contributes its own block in hard-line order, and a fitting hard line is its block, verbatim and alone |
| Wrap.WrapLinesWords | bot.py:63-83 | the output lines carry the words of the hard lines, in order |
| Wrap.WrapLinesNoBreaks | bot.py:65-83 | no output line contains a line break |
| Wrap.WordWrap | bot.py:59-85 | text whose bounding box fits (equality included) is returned unchanged, and the result always has exactly the words of the text |
| Wrap.WrappedLinesRecovered | bot.py:62-83 | when wrapping happens, the lines of the result are exactly the per-hard-line blocks (when the last is non-empty) |
| Wrap.ReflowLoop | bot.py:68-80 | the `new_line`/`last_line` loop computes exactly the reference re-flow |
| Wrap.WordWrapLoop | bot.py:59-85 | the whole `word_wrap` procedure computes exactly `WordWrap` |
| Render.SelectPalette | bot.py:89-96 | RGB and RGBA get a white fill and a black stroke with one component per channel, alpha 255; any other mode is an error |
| Render.RenderText | bot.py:88-108 | the mode error comes first; a missing text is empty; the text is wrapped at the canvas width with its words kept; the origin is `(W // 2 - tw / 2, H // 2 - th / 2)`, with `W // 2` at most half a pixel from the geometric centre; the box is measured at (0, 0) and drawn shifted by the origin, so its centre is at `W // 2 + left`, `H // 2 + top`; stroke 1, centred |
| Render.MissingTextIsEmpty | bot.py:98-99 | rendering `None` is the same as rendering the empty string |
| Styles.FirstMatch | bot.py:113 | the index of the first entry with the id, with every earlier entry having another id |
| Styles.CountMatching | bot.py:199 | the number of entries with the id is zero exactly when no entry has it |
| Styles.Lookup | bot.py:126 | lookup yields the first entry with the id, which in a name-sorted catalog has the least name among them; it fails exactly when no entry has the id |
| Serve.MakeImage | bot.py:111-117 | an unknown id fails; otherwise the first matching style's base image is the canvas and the result succeeds exactly when that image is RGB or RGBA; the caption drawn is exactly what `render_text` produces on that canvas, so it is wrapped, placed and coloured as `Render.RenderText` states, with its words kept |
| Serve.MakeVideoOverlay | bot.py:120-130 | only an unknown id fails; the overlay is an RGBA canvas the size of the style's base image, and its caption is exactly what `render_text` produces on it, with full-alpha colours and the caption's words kept |
| Serve.MakeVideo | bot.py:120-145 | an unknown id fails; otherwise the video succeeds exactly when the encoder exits with status 0, a non-zero status is reported, and the result is the overlay on the first matching style's video |
| Serve.ServeRender | bot.py:194-209 | an unknown id is refused before the extension is looked at; `png` gives `image/png` and `mp4` gives `video/mp4`; other extensions are refused; `png` succeeds exactly when the base image is RGB or RGBA, its body is `make_image`'s frame, and its error is `make_image`'s (the mode error of `render_text`); `mp4` succeeds exactly when the encoder exits with status 0, and its body is the overlay on the first matching style's video |

## Left out

- Font loading and glyph measurement are Pillow code. They enter only as the two uninterpreted functions of `Wrap.Font`.
- Drawing (`multiline_text`), PNG encoding and `Image.open` are Pillow code. The draw call is represented by its arguments (`Render.TextOp`). Opening an image is a parameter that maps a path to a canvas. Failures to open or decode an image are not modelled.
- `get_styles` scans the filesystem and reads JSON, which is I/O. Only its result is modelled: a catalog sorted by name (`Styles.Catalog`). The sort itself is not modelled.
- The encoder run of `make_video` is a parameter that yields ffmpeg's exit status (`Serve.MakeVideo`). The temporary directory, the PNG and MP4 files and the ffmpeg arguments are file I/O and an external process, so they are not modelled.
- Text.SplitLines: only `\n` breaks lines. Python also breaks at `\r`, `\r\n`, `\x0b`, `\x0c`, `\x1c`-`\x1e`, `\x85`, `\u2028` and `\u2029`.
- Text.Words: only the six ASCII whitespace characters separate words. Python's `str.split()` also splits at `\x1c`-`\x1f` and at Unicode whitespace.
- Render.RenderText: the origin is an exact real number. Python computes it in floating point, which is exact for integer halves of the sizes that occur.
- Render.RenderText: does not promise that the drawn text stays inside the canvas. The code measures the box at (0, 0) and does not subtract the box's `left` and `top` when it draws, so the drawn box is shifted by them.
- Styles.Lookup: an unknown id reports `UnknownStyle`. In the code the list comprehension raises `IndexError`.
- The chat and web plumbing is not modelled: Telegram handlers (`start`, `inline_query`, `message`), the URL built with `quote_plus`, the Flask index page and webhook, the update queue and the polling thread. These are network, UI and concurrency. `serve_render` takes its style id, extension and text as given: reading them from the query string (bot.py:196-198), and the `KeyError` a missing argument raises first, are Flask request parsing and are not modelled.
- libhoney telemetry events are side effects with no bearing on the result.

=== FILE: render.dfy ===
/**
  The decisions of `render_text` in bot.py: colours by canvas mode, a missing
  text treated as empty, the wrap at the canvas width, and the placement that
  centres the wrapped text's bounding box on the canvas. The drawing itself is
  represented by the arguments of the single `multiline_text` call.
 */
module Render {
  import opened Wrappers
  import opened Text
  import opened Wrap

  /** An image as the renderer sees it: its mode name and its size in pixels. */
  datatype Canvas = Canvas(mode: string, width: nat, height: nat)

  /** Fill and stroke colours, one component per channel of the canvas. */
  datatype Palette = Palette(fill: seq<int>, stroke: seq<int>)

  /**
    White fill and black stroke for an RGB or RGBA canvas, both fully opaque;
    any other mode is refused.
   */
  function SelectPalette(mode: string): (r: Result<Palette>)
    ensures r.Err? <==> mode != "RGB" && mode != "RGBA"
    ensures r.Err? ==> r.error == UnsupportedMode(mode)
    ensures r.Ok? ==> |r.value.fill| == |mode| && |r.value.stroke| == |mode|
    ensures r.Ok? ==> forall k :: 0 <= k < |mode| ==>
              r.value.fill[k] == 255 && r.value.stroke[k] == (if mode[k] == 'A' then 255 else 0)
  {
    if mode == "RGB" then Ok(Palette([255, 255, 255], [0, 0, 0]))
    else if mode == "RGBA" then Ok(Palette([255, 255, 255, 255], [0, 0, 0, 255]))
    else Err(UnsupportedMode(mode))
  }

  /** The arguments of the `multiline_text` call: origin, text, colours, stroke and alignment. */
  datatype TextOp = TextOp(x: real, y: real, text: string, palette: Palette, strokeWidth: nat, align: string)

  /** Python's true division by two of an integer. */
  function Half(n: int): real {
    (n as real) / 2.0
  }

  /** Floor division by two loses at most half a unit. */
  lemma HalfFloor(n: int)
    ensures 0.0 <= Half(n) - ((n / 2) as real) <= 0.5
  {
    var q := n / 2;
    var m := n % 2;
    assert n == 2 * q + m;
    assert n as real == 2.0 * (q as real) + (m as real);
  }

  /**
    `render_text(text, base)`: the mode check comes first; a missing text is
    the empty string; the text is wrapped at the canvas width. The origin is
    the integer centre of the canvas less half the measured width and height,
    and the integer centre is at most half a pixel left of (or above) the
    geometric centre. The text is measured at the origin (0, 0) and drawn
    without subtracting the box's own offset, so the centre of the drawn box
    is the integer centre moved by that offset (`left`, `top`).
   */
  function RenderText(f: Font, text: Option<string>, base: Canvas): (r: Result<TextOp>)
    ensures r.Err? <==> base.mode != "RGB" && base.mode != "RGBA"
    ensures r.Err? ==> r.error == UnsupportedMode(base.mode)
    ensures r.Ok? ==> r.value.palette == SelectPalette(base.mode).value
    ensures r.Ok? ==> r.value.text == WordWrap(f, base.width, OrEmpty(text))
    ensures r.Ok? ==> Words(r.value.text) == Words(OrEmpty(text))
    ensures r.Ok? ==> r.value.strokeWidth == 1 && r.value.align == "center"
    ensures r.Ok? ==>
              var tw := MultiWidth(f, r.value.text);
              var th := MultiHeight(f, r.value.text);
              && r.value.x + Half(tw) == (base.width / 2) as real
              && r.value.y + Half(th) == (base.height / 2) as real
              && 0.0 <= Half(base.width) - (r.value.x + Half(tw)) <= 0.5
              && 0.0 <= Half(base.height) - (r.value.y + Half(th)) <= 0.5
    ensures r.Ok? ==>
              var box := f.textBBox(r.value.text);
              && r.value.x + Half(box.left + box.right) == ((base.width / 2) + box.left) as real
              && r.value.y + Half(box.top + box.bottom) == ((base.height / 2) + box.top) as real
  {
    match SelectPalette(base.mode)
    case Err(e) => Err(e)
    case Ok(palette) =>
      var t := OrEmpty(text);
      var wrapped := WordWrap(f, base.width, t);
      var tw := MultiWidth(f, wrapped);
      var th := MultiHeight(f, wrapped);
      var cx := base.width / 2;
      var cy := base.height / 2;
      HalfFloor(base.width);
      HalfFloor(base.height);
      Ok(TextOp(cx as real - Half(tw), cy as real - Half(th), wrapped, palette, 1, "center"))
  }

  /** The text to render: a missing one counts as empty. */
  function OrEmpty(text: Option<string>): string {
    if text.None? then "" else text.value
  }

  /** A missing text renders exactly as the empty text. */
  lemma MissingTextIsEmpty(f: Font, base: Canvas)
    ensures RenderText(f, None, base) == RenderText(f, Some(""), base)
    ensures RenderText(f, None, base).Ok? ==>
              RenderText(f, None, base).value.text == WordWrap(f, base.width, "")
  {
  }
}

=== FILE: serve.dfy ===
/**
  Request handling around the renderer in bot.py: `make_image` up to PNG
  encoding, `make_video` up to the encoder run, and the checks and dispatch of
  `serve_render`. Opening an image file is a parameter, `openImage`, that
  yields the canvas found at a path. The encoder run is a parameter too,
  `runEncoder`, that yields the exit status of ffmpeg laying an overlay
  frame onto a video.
 */
module Serve {
  import opened Wrappers
  import opened Text
  import opened Wrap
  import opened Render
  import opened Styles

  /** A canvas together with the caption drawn on it. */
  datatype Frame = Frame(canvas: Canvas, op: TextOp)

  /**
    `make_image(text, style_id)`: the first style with the id, its base image
    opened as the canvas, and the caption rendered onto it. Fails for an
    unknown id, and for a base image that is neither RGB nor RGBA.
   */
  function MakeImage(f: Font, catalog: Catalog, openImage: string -> Canvas, text: string, styleId: string)
    : (r: Result<Frame>)
    ensures CountMatching(catalog, styleId) == 0 ==> r == Err(UnknownStyle(styleId))
    ensures CountMatching(catalog, styleId) > 0 ==>
              var base := openImage(Lookup(catalog, styleId).value.image);
              && (r.Ok? <==> base.mode == "RGB" || base.mode == "RGBA")
              && (r.Err? ==> r.error == UnsupportedMode(base.mode))
              && (r.Ok? ==> r.value.canvas == base)
    ensures r.Ok? ==> Words(r.value.op.text) == Words(text)
    ensures r.Ok? ==> RenderText(f, Some(text), r.value.canvas) == Ok(r.value.op)
  {
    match Lookup(catalog, styleId)
    case Err(e) => Err(e)
    case Ok(style) =>
      var base := openImage(style.image);
      match RenderText(f, Some(text), base)
      case Err(e) => Err(e)
      case Ok(op) => Ok(Frame(base, op))
  }

  /**
    The overlay frame of `make_video(text, style_id)`: a new RGBA canvas the
    size of the style's base image, with the caption rendered onto it. Only an
    unknown id can make it fail, and its colours carry full alpha.
   */
  function MakeVideoOverlay(f: Font, catalog: Catalog, openImage: string -> Canvas, text: string, styleId: string)
    : (r: Result<Frame>)
    ensures r.Err? <==> CountMatching(catalog, styleId) == 0
    ensures r.Err? ==> r.error == UnknownStyle(styleId)
    ensures r.Ok? ==>
              var image := openImage(Lookup(catalog, styleId).value.image);
              && r.value.canvas == Canvas("RGBA", image.width, image.height)
              && r.value.op.palette == Palette([255, 255, 255, 255], [0, 0, 0, 255])
              && Words(r.value.op.text) == Words(text)
    ensures r.Ok? ==> RenderText(f, Some(text), r.value.canvas) == Ok(r.value.op)
  {
    match Lookup(catalog, styleId)
    case Err(e) => Err(e)
    case Ok(style) =>
      var image := openImage(style.image);
      var overlay := Canvas("RGBA", image.width, image.height);
      match RenderText(f, Some(text), overlay)
      case Err(e) => Err(e)
      case Ok(op) => Ok(Frame(overlay, op))
  }

  /** What `serve_render` hands back: a still frame, or an overlay and the video it was encoded onto. */
  datatype Body = Png(frame: Frame) | Mp4(overlay: Frame, video: string)

  /**
    `make_video(text, style_id)`: the overlay frame, then the encoder run that
    lays it onto the style's video. A non-zero exit status raises
    (`check_returncode`), so the video fails exactly for an unknown id or a
    failed encoder run.
   */
  function MakeVideo(f: Font, catalog: Catalog, openImage: string -> Canvas, runEncoder: (Frame, string) -> int,
                     text: string, styleId: string): (r: Result<Body>)
    ensures CountMatching(catalog, styleId) == 0 ==> r == Err(UnknownStyle(styleId))
    ensures CountMatching(catalog, styleId) > 0 ==>
              var overlay := MakeVideoOverlay(f, catalog, openImage, text, styleId).value;
              var video := Lookup(catalog, styleId).value.video;
              && (r.Ok? <==> runEncoder(overlay, video) == 0)
              && (r.Err? ==> r.error == EncoderFailed(runEncoder(overlay, video)))
              && (r.Ok? ==> r.value == Mp4(overlay, video))
  {
    match Lookup(catalog, styleId)
    case Err(e) => Err(e)
    case Ok(style) =>
      var overlay := MakeVideoOverlay(f, catalog, openImage, text, styleId).value;
      var code := runEncoder(overlay, style.video);
      if code != 0 then Err(EncoderFailed(code)) else Ok(Mp4(overlay, style.video))
  }

  datatype Response = Response(body: Body, contentType: string)

  /**
    `serve_render`: an id no style has is refused first; then `png` gives an
    image and `mp4` a video, and any other extension is refused. A known id
    with `png` succeeds exactly when the base image is RGB or RGBA; with `mp4`
    it succeeds exactly when the encoder run succeeds.
   */
  function ServeRender(f: Font, catalog: Catalog, openImage: string -> Canvas, runEncoder: (Frame, string) -> int,
                       styleId: string, ext: string, text: string): (r: Result<Response>)
    ensures CountMatching(catalog, styleId) == 0 ==> r == Err(UnknownStyle(styleId))
    ensures CountMatching(catalog, styleId) > 0 && ext != "png" && ext != "mp4" ==> r == Err(BadExtension(ext))
    ensures r.Ok? ==>
              || (ext == "png" && r.value.contentType == "image/png" && r.value.body.Png?)
              || (ext == "mp4" && r.value.contentType == "video/mp4" && r.value.body.Mp4?)
    ensures ext == "png" && CountMatching(catalog, styleId) > 0 ==>
              var mode := openImage(Lookup(catalog, styleId).value.image).mode;
              (r.Ok? <==> mode == "RGB" || mode == "RGBA")
    ensures ext == "png" && r.Ok? ==>
              MakeImage(f, catalog, openImage, text, styleId) == Ok(r.value.body.frame)
    ensures ext == "png" && CountMatching(catalog, styleId) > 0 && r.Err? ==>
              MakeImage(f, catalog, openImage, text, styleId) == Err(r.error)
    ensures ext == "mp4" && CountMatching(catalog, styleId) > 0 ==>
              var overlay := MakeVideoOverlay(f, catalog, openImage, text, styleId).value;
              var video := Lookup(catalog, styleId).value.video;
              && (r.Ok? <==> runEncoder(overlay, video) == 0)
              && (r.Err? ==> r.error == EncoderFailed(runEncoder(overlay, video)))
              && (r.Ok? ==> r.value.body == Mp4(overlay, video))
  {
    if CountMatching(catalog, styleId) == 0 then
      Err(UnknownStyle(styleId))
    else if ext == "png" then
      match MakeImage(f, catalog, openImage, text, styleId)
      case Err(e) => Err(e)
      case Ok(frame) => Ok(Response(Png(frame), "image/png"))
    else if ext == "mp4" then
      match MakeVideo(f, catalog, openImage, runEncoder, text, styleId)
      case Err(e) => Err(e)
      case Ok(body) => Ok(Response(body, "video/mp4"))
    else
      Err(BadExtension(ext))
  }
}

=== FILE: styles.dfy ===
/**
  The style catalog of bot.py: its entries, its order by display name, and
  the two ways the code consults it (first match by id, and a count of
  matches).
 */
module Styles {
  import opened Wrappers

  /** One catalog entry: folder id, display name, attribution, and the paths of its base media. */
  datatype Style = Style(id: string, name: string, source: string, image: string, video: string)

  /** Python's `<=` on strings: lexicographic by code point. */
  predicate NameLe(a: string, b: string)
    decreases |a|
  {
    |a| == 0 || (|b| > 0 && (a[0] < b[0] || (a[0] == b[0] && NameLe(a[1..], b[1..]))))
  }

  lemma {:induction false} NameLeReflexive(a: string)
    ensures NameLe(a, a)
    decreases |a|
  {
    if |a| > 0 {
      NameLeReflexive(a[1..]);
    }
  }

  predicate SortedByName(styles: seq<Style>) {
    forall i, j :: 0 <= i < j < |styles| ==> NameLe(styles[i].name, styles[j].name)
  }

  /** The catalog as loaded at start-up: sorted by display name. */
  type Catalog = styles: seq<Style> | SortedByName(styles) witness []

  /** Index of the first entry with the given id, or the length when there is none. */
  function FirstMatch(styles: seq<Style>, id: string): (k: nat)
    ensures k <= |styles|
    ensures forall j :: 0 <= j < k ==> styles[j].id != id
    ensures k < |styles| ==> styles[k].id == id
  {
    if |styles| == 0 then 0
    else if styles[0].id == id then 0
    else 1 + FirstMatch(styles[1..], id)
  }

  /** The number of entries with the given id. */
  function CountMatching(styles: seq<Style>, id: string): (n: nat)
    ensures n <= |styles|
    ensures n == 0 <==> forall i :: 0 <= i < |styles| ==> styles[i].id != id
  {
    if |styles| == 0 then 0
    else (if styles[0].id == id then 1 else 0) + CountMatching(styles[1..], id)
  }

  /**
    The style of a given id: the first entry that has it, so in a sorted
    catalog the one with the least name among those sharing the id. Fails
    exactly when no entry has the id.
   */
  function Lookup(styles: seq<Style>, id: string): (r: Result<Style>)
    ensures r.Err? <==> CountMatching(styles, id) == 0
    ensures r.Err? ==> r.error == UnknownStyle(id)
    ensures r.Ok? ==> r.value.id == id
    ensures r.Ok? ==>
              exists i :: 0 <= i < |styles| && styles[i] == r.value && forall j :: 0 <= j < i ==> styles[j].id != id
    ensures r.Ok? && SortedByName(styles) ==>
              forall j :: 0 <= j < |styles| && styles[j].id == id ==> NameLe(r.value.name, styles[j].name)
  {
    var k := FirstMatch(styles, id);
    if k < |styles| then
      NameLeReflexive(styles[k].name);
      Ok(styles[k])
    else
      Err(UnknownStyle(id))
  }
}

=== FILE: text.dfy ===
/**
  Python's string splitting and joining, as the layout code uses them:
  `str.split()` (whitespace-separated words), `str.splitlines()` (hard lines)
  and `sep.join(parts)`.

  Separators are restricted to ASCII: words are separated by the six ASCII
  whitespace characters, and lines by '\n' alone.
 */
module Text {

  /** The characters `str.split()` treats as word separators (ASCII subset). */
  predicate IsSpace(c: char) {
    c == ' ' || c == '\t' || c == '\n' || c == '\r' || c == '\U{000B}' || c == '\U{000C}'
  }

  /** Length of the run of non-separators at the start of `s`. */
  function WordLen(s: string): (n: nat)
    ensures n <= |s|
    ensures n < |s| ==> IsSpace(s[n])
    ensures |s| > 0 && !IsSpace(s[0]) ==> n > 0
  {
    if |s| == 0 || IsSpace(s[0]) then 0 else 1 + WordLen(s[1..])
  }

  /** Length of the part of `s` before its first line break. */
  function LineLen(s: string): (n: nat)
    ensures n <= |s|
    ensures n < |s| ==> s[n] == '\n'
  {
    if |s| == 0 || s[0] == '\n' then 0 else 1 + LineLen(s[1..])
  }

  /** A word as `str.split()` yields it: non-empty and free of separators. */
  predicate IsWord(w: string) {
    |w| > 0 && WordLen(w) == |w|
  }

  predicate AllWords(ws: seq<string>) {
    forall i :: 0 <= i < |ws| ==> IsWord(ws[i])
  }

  /** A string without a line break. */
  predicate NoBreak(l: string) {
    LineLen(l) == |l|
  }

  /** `NoBreak` says exactly that no character is '\n'. */
  lemma {:induction false} NoBreakMeaning(l: string)
    ensures NoBreak(l) <==> '\n' !in l
    decreases |l|
  {
    if |l| > 0 {
      NoBreakMeaning(l[1..]);
      assert l == [l[0]] + l[1..];
    }
  }

  /** The leading word run of a concatenation. */
  lemma {:induction false} WordLenConcat(a: string, t: string)
    ensures WordLen(a) < |a| ==> WordLen(a + t) == WordLen(a)
    ensures WordLen(a) == |a| ==> WordLen(a + t) == |a| + WordLen(t)
    decreases |a|
  {
    if |a| == 0 {
      assert a + t == t;
    } else if !IsSpace(a[0]) {
      assert (a + t)[1..] == a[1..] + t;
      WordLenConcat(a[1..], t);
    }
  }

  /** The leading line of a concatenation. */
  lemma {:induction false} LineLenConcat(a: string, t: string)
    ensures LineLen(a) < |a| ==> LineLen(a + t) == LineLen(a)
    ensures LineLen(a) == |a| ==> LineLen(a + t) == |a| + LineLen(t)
    decreases |a|
  {
    if |a| == 0 {
      assert a + t == t;
    } else if a[0] != '\n' {
      assert (a + t)[1..] == a[1..] + t;
      LineLenConcat(a[1..], t);
    }
  }

  /** A line break is a separator, so a word run never crosses a line break. */
  lemma {:induction false} WordLenWithinLine(s: string)
    ensures WordLen(s) <= LineLen(s)
    decreases |s|
  {
    if |s| > 0 && !IsSpace(s[0]) {
      WordLenWithinLine(s[1..]);
    }
  }

  /** `s.split()`: the maximal runs of non-separators, in order. */
  function Words(s: string): seq<string>
    decreases |s|
  {
    if |s| == 0 then []
    else if IsSpace(s[0]) then Words(s[1..])
    else
      var n := WordLen(s);
      [s[..n]] + Words(s[n..])
  }

  /** `str.split()` yields only non-empty words that hold no separator. */
  lemma {:induction false} WordsAreWords(s: string)
    ensures AllWords(Words(s))
    decreases |s|
  {
    if |s| > 0 {
      if IsSpace(s[0]) {
        WordsAreWords(s[1..]);
      } else {
        var n := WordLen(s);
        assert s == s[..n] + s[n..];
        WordLenConcat(s[..n], s[n..]);
        WordsAreWords(s[n..]);
      }
    }
  }

  /** A separator splits the words of a string exactly in two. */
  lemma {:induction false} WordsSplitAt(a: string, c: char, b: string)
    requires IsSpace(c)
    ensures Words(a + [c] + b) == Words(a) + Words(b)
    decreases |a|, 2
  {
    var t := [c] + b;
    assert a + [c] + b == a + t;
    if |a| == 0 {
      assert a + t == t;
      assert t[1..] == b;
    } else if IsSpace(a[0]) {
      CutConcat(a, t, 1);
      WordsSplitAt(a[1..], c, b);
      assert a[1..] + t == a[1..] + [c] + b;
    } else {
      WordsSplitAtWord(a, c, b);
    }
  }

  /** The case of `WordsSplitAt` where `a` starts with a word. */
  lemma {:induction false} WordsSplitAtWord(a: string, c: char, b: string)
    requires IsSpace(c) && |a| > 0 && !IsSpace(a[0])
    ensures Words(a + [c] + b) == Words(a) + Words(b)
    decreases |a|, 1
  {
    if WordLen(a) < |a| {
      WordsSplitAfterWord(a, c, b);
    } else {
      var t := [c] + b;
      assert a + [c] + b == a + t;
      WordsWholeWord(a, t);
      WordsAfterSpace(t);
      assert t[1..] == b;
    }
  }

  /** The case of `WordsSplitAtWord` where the leading word ends inside `a`. */
  lemma {:induction false} WordsSplitAfterWord(a: string, c: char, b: string)
    requires IsSpace(c) && |a| > 0 && !IsSpace(a[0]) && WordLen(a) < |a|
    ensures Words(a + [c] + b) == Words(a) + Words(b)
    decreases |a|, 0
  {
    var t := [c] + b;
    var n := WordLen(a);
    var rest := a[n..];
    var w := a[..n];
    assert a + [c] + b == a + t;
    assert WordLen(a + t) == n && (a + t)[..n] == w && (a + t)[n..] == rest + [c] + b by {
      WordLenConcat(a, t);
      CutConcat(a, t, n);
    }
    assert Words(a + t) == [w] + Words(rest + [c] + b) by {
      WordsAtWord(a + t);
    }
    assert Words(a) == [w] + Words(rest) by {
      WordsAtWord(a);
    }
    WordsSplitAt(rest, c, b);
    AppendAssoc([w], Words(rest), Words(b));
  }

  lemma AppendAssoc<T>(x: seq<T>, y: seq<T>, z: seq<T>)
    ensures x + (y + z) == (x + y) + z
  {
  }

  /** `Words` of a string that starts with a word. */
  lemma WordsAtWord(s: string)
    requires |s| > 0 && !IsSpace(s[0])
    ensures Words(s) == [s[..WordLen(s)]] + Words(s[WordLen(s)..])
  {
  }

  /** `Words` of a string that starts with a separator. */
  lemma WordsAfterSpace(s: string)
    requires |s| > 0 && IsSpace(s[0])
    ensures Words(s) == Words(s[1..])
  {
  }

  /** A whole word followed by a string that starts with a separator. */
  lemma WordsWholeWord(a: string, t: string)
    requires |a| > 0 && WordLen(a) == |a| && |t| > 0 && IsSpace(t[0])
    ensures Words(a) == [a]
    ensures Words(a + t) == [a] + Words(t)
  {
    WordLenConcat(a, t);
    CutConcat(a, t, |a|);
    assert a[..|a|] == a;
    assert a[|a|..] == [];
    WordsAtWord(a);
    WordsAtWord(a + t);
  }

  /** Cutting a concatenation inside its first part. */
  lemma CutConcat(a: string, t: string, n: nat)
    requires n <= |a|
    ensures (a + t)[..n] == a[..n]
    ensures (a + t)[n..] == a[n..] + t
  {
  }

  /** A single word splits to itself. */
  lemma WordsOfWord(w: string)
    requires IsWord(w)
    ensures Words(w) == [w]
  {
    assert w[..|w|] == w;
    assert w[|w|..] == [];
  }

  /** `sep.join(parts)`. */
  function Join(parts: seq<string>, sep: char): string {
    if |parts| == 0 then ""
    else if |parts| == 1 then parts[0]
    else parts[0] + [sep] + Join(parts[1..], sep)
  }

  /** Joining a part in front of a non-empty list of parts. */
  lemma JoinCons(head: string, tail: seq<string>, sep: char)
    requires |tail| > 0
    ensures Join([head] + tail, sep) == head + [sep] + Join(tail, sep)
  {
    assert ([head] + tail)[1..] == tail;
  }

  /** Joining one more part appends the separator and that part. */
  lemma {:induction false} JoinSnoc(parts: seq<string>, p: string, sep: char)
    requires |parts| > 0
    ensures Join(parts + [p], sep) == Join(parts, sep) + [sep] + p
    decreases |parts|
  {
    if |parts| > 1 {
      assert (parts + [p])[1..] == parts[1..] + [p];
      JoinSnoc(parts[1..], p, sep);
    }
  }

  /** A space-joined run of words is empty exactly when there are no words. */
  lemma JoinWordsEmpty(ws: seq<string>)
    requires AllWords(ws)
    ensures |Join(ws, ' ')| == 0 <==> |ws| == 0
  {
    if |ws| > 1 {
      assert |Join(ws, ' ')| >= |ws[0]|;
    }
  }

  /** Words joined by spaces hold no line break. */
  lemma {:induction false} JoinedWordsNoBreak(ws: seq<string>)
    requires AllWords(ws)
    ensures NoBreak(Join(ws, ' '))
    decreases |ws|
  {
    if |ws| > 0 {
      assert IsWord(ws[0]);
      WordLenWithinLine(ws[0]);
      if |ws| > 1 {
        var rest := Join(ws[1..], ' ');
        JoinedWordsNoBreak(ws[1..]);
        LineLenConcat(ws[0], [' '] + rest);
        assert ([' '] + rest)[1..] == rest;
        assert Join(ws, ' ') == ws[0] + ([' '] + rest);
      }
    }
  }

  /** The concatenation of the word lists of several strings. */
  function WordsOfLines(ls: seq<string>): seq<string> {
    if |ls| == 0 then [] else Words(ls[0]) + WordsOfLines(ls[1..])
  }

  lemma {:induction false} WordsOfLinesAppend(a: seq<string>, b: seq<string>)
    ensures WordsOfLines(a + b) == WordsOfLines(a) + WordsOfLines(b)
    decreases |a|
  {
    if |a| == 0 {
      assert a + b == b;
    } else {
      assert (a + b)[1..] == a[1..] + b;
      WordsOfLinesAppend(a[1..], b);
    }
  }

  /** Joining with a separator neither creates nor destroys words. */
  lemma {:induction false} WordsOfJoin(ls: seq<string>, sep: char)
    requires IsSpace(sep)
    ensures Words(Join(ls, sep)) == WordsOfLines(ls)
    decreases |ls|
  {
    if |ls| == 1 {
      assert WordsOfLines(ls) == Words(ls[0]) + WordsOfLines([]);
    } else if |ls| > 1 {
      WordsSplitAt(ls[0], sep, Join(ls[1..], sep));
      WordsOfJoin(ls[1..], sep);
    }
  }

  /** Round trip: splitting the space-joined words gives the words back. */
  lemma {:induction false} WordsOfJoinedWords(ws: seq<string>)
    requires AllWords(ws)
    ensures Words(Join(ws, ' ')) == ws
    ensures WordsOfLines(ws) == ws
    decreases |ws|
  {
    WordsOfJoin(ws, ' ');
    if |ws| > 0 {
      WordsOfWord(ws[0]);
      WordsOfJoinedWords(ws[1..]);
      assert ws == [ws[0]] + ws[1..];
    }
  }

  /**
    `s.splitlines()` with '\n' as the only break: the pieces between breaks,
    where a final break does not open an empty last piece.
   */
  function SplitLines(s: string): seq<string>
    decreases |s|
  {
    if |s| == 0 then []
    else
      var n := LineLen(s);
      if n == |s| then [s] else [s[..n]] + SplitLines(s[n + 1..])
  }

  /** A text with a line break splits into the line before it and the lines after it. */
  lemma SplitLinesStep(s: string)
    requires LineLen(s) < |s|
    ensures SplitLines(s) == [s[..LineLen(s)]] + SplitLines(s[LineLen(s) + 1..])
    ensures s == s[..LineLen(s)] + ['\n'] + s[LineLen(s) + 1..]
    ensures NoBreak(s[..LineLen(s)])
  {
    BreakAt(s, LineLen(s));
  }

  /** The text before the first line break holds no break, and the break separates it from the rest. */
  lemma BreakAt(s: string, n: nat)
    requires n == LineLen(s) < |s|
    ensures s == s[..n] + ['\n'] + s[n + 1..]
    ensures NoBreak(s[..n])
  {
    CutAt(s, n);
    LineLenConcat(s[..n], s[n..]);
  }

  /** A string is its prefix, the character at the cut, and its suffix. */
  lemma CutAt(s: string, n: nat)
    requires n < |s|
    ensures s == s[..n] + s[n..]
    ensures s == s[..n] + [s[n]] + s[n + 1..]
  {
    assert s[n..] == [s[n]] + s[n + 1..];
  }

  /** No hard line contains a break, and a non-empty text has at least one hard line. */
  lemma {:induction false} SplitLinesNoBreaks(s: string)
    ensures forall i :: 0 <= i < |SplitLines(s)| ==> NoBreak(SplitLines(s)[i])
    ensures |s| > 0 ==> |SplitLines(s)| > 0
    decreases |s|
  {
    if |s| > 0 {
      var n := LineLen(s);
      if n < |s| {
        SplitLinesStep(s);
        SplitLinesNoBreaks(s[n + 1..]);
      }
    }
  }

  /** Joining the hard lines restores the text, unless the text ends in a break. */
  lemma {:induction false} JoinSplitLines(s: string)
    requires |s| == 0 || s[|s| - 1] != '\n'
    ensures Join(SplitLines(s), '\n') == s
    decreases |s|
  {
    if |s| > 0 {
      var n := LineLen(s);
      if n < |s| {
        var rest := s[n + 1..];
        assert rest[|rest| - 1] == s[|s| - 1];
        JoinSplitLines(rest);
        SplitLinesStep(s);
        JoinCons(s[..n], SplitLines(rest), '\n');
      }
    }
  }

  /**
    A text that ends in a line break loses exactly that one break when its
    hard lines are joined again: `"a\n"` splits to `["a"]`.
   */
  lemma {:induction false} JoinSplitLinesTrailing(s: string)
    requires |s| > 0 && s[|s| - 1] == '\n'
    ensures Join(SplitLines(s), '\n') + "\n" == s
    decreases |s|
  {
    NoBreakMeaning(s);
    assert '\n' in s;
    var n := LineLen(s);
    var rest := s[n + 1..];
    SplitLinesStep(s);
    if |rest| == 0 {
      assert SplitLines(s) == [s[..n]];
    } else {
      assert rest[|rest| - 1] == s[|s| - 1];
      JoinSplitLinesTrailing(rest);
      SplitLinesNoBreaks(rest);
      JoinCons(s[..n], SplitLines(rest), '\n');
      AppendAssoc(s[..n] + ['\n'], Join(SplitLines(rest), '\n'), "\n");
    }
  }

  /** Splitting joined lines gives them back, unless the last one is empty. */
  lemma {:induction false} SplitJoinLines(ls: seq<string>)
    requires forall i :: 0 <= i < |ls| ==> NoBreak(ls[i])
    requires |ls| == 0 || ls[|ls| - 1] != ""
    ensures SplitLines(Join(ls, '\n')) == ls
    decreases |ls|
  {
    if |ls| > 1 {
      var rest := Join(ls[1..], '\n');
      var t := ['\n'] + rest;
      var s := ls[0] + t;
      JoinCons(ls[0], ls[1..], '\n');
      assert ls == [ls[0]] + ls[1..];
      assert s == Join(ls, '\n');
      LineLenConcat(ls[0], t);
      assert LineLen(s) == |ls[0]|;
      assert s[..|ls[0]|] == ls[0];
      assert s[|ls[0]| + 1..] == rest;
      SplitJoinLines(ls[1..]);
    }
  }

  /** The words of a text are the words of its hard lines, in order. */
  lemma {:induction false} WordsOfSplitLines(s: string)
    ensures WordsOfLines(SplitLines(s)) == Words(s)
    decreases |s|
  {
    if |s| > 0 {
      var n := LineLen(s);
      if n == |s| {
        assert SplitLines(s) == [s];
        assert WordsOfLines([s]) == Words(s) + WordsOfLines([]);
      } else {
        var head := s[..n];
        var rest := s[n + 1..];
        var tail := SplitLines(rest);
        SplitLinesStep(s);
        assert ([head] + tail)[1..] == tail;
        assert WordsOfLines([head] + tail) == Words(head) + WordsOfLines(tail);
        WordsSplitAt(head, '\n', rest);
        WordsOfSplitLines(rest);
      }
    }
  }
}

=== FILE: wrap.dfy ===
/**
  The greedy word-wrap of `word_wrap` in bot.py.

  Text that fits is returned untouched. Otherwise each hard line is kept when
  it fits and re-flowed word by word when it does not. Font measurement enters
  through two uninterpreted functions: the multi-line bounding box used for
  the whole-text check, and the single-line width used per hard line and per
  candidate. Nothing relates the two, and neither is assumed monotonic.
 */
module Wrap {
  import opened Text

  /** Extents of a multi-line bounding-box query at origin (0, 0). */
  datatype Box = Box(left: int, top: int, right: int, bottom: int)

  /** The two measurements the layout code asks of its font. */
  datatype Font = Font(textBBox: string -> Box, textWidth: string -> int)

  /** Width of the multi-line bounding box of `s`. */
  function MultiWidth(f: Font, s: string): int {
    f.textBBox(s).right - f.textBBox(s).left
  }

  /** Height of the multi-line bounding box of `s`. */
  function MultiHeight(f: Font, s: string): int {
    f.textBBox(s).bottom - f.textBBox(s).top
  }

  /** The text the loop measures after appending `w` to the line `cur`. */
  function Candidate(cur: string, w: string): string {
    if |cur| > 0 then cur + " " + w else w
  }

  /**
    Reference definition of the re-flow of one overflowing hard line, on groups
    of words. `cur` is the group being accumulated. A word that makes the
    space-joined candidate too wide commits `cur` (even when `cur` is still
    empty) and starts a new group with that word alone.
   */
  function Flow(f: Font, width: int, words: seq<string>, cur: seq<string>): seq<seq<string>>
    decreases |words|
  {
    if |words| == 0 then (if |cur| > 0 then [cur] else [])
    else if f.textWidth(Join(cur + [words[0]], ' ')) > width then
      [cur] + Flow(f, width, words[1..], [words[0]])
    else
      Flow(f, width, words[1..], cur + [words[0]])
  }

  /** Each group written out as a line of single-space-separated words. */
  function JoinAll(groups: seq<seq<string>>): seq<string> {
    seq(|groups|, i requires 0 <= i < |groups| => Join(groups[i], ' '))
  }

  /** Flattening a sequence of groups. */
  function Concat(groups: seq<seq<string>>): seq<string> {
    if |groups| == 0 then [] else groups[0] + Concat(groups[1..])
  }

  /** The lines an overflowing hard line is re-flowed into. */
  function Reflow(f: Font, width: int, line: string): seq<string> {
    JoinAll(Flow(f, width, Words(line), []))
  }

  /** The output lines one hard line contributes. */
  function LayoutLine(f: Font, width: int, line: string): seq<string> {
    if f.textWidth(line) > width then Reflow(f, width, line) else [line]
  }

  /** The output lines of a sequence of hard lines. */
  function WrapLines(f: Font, width: int, lines: seq<string>): seq<string> {
    if |lines| == 0 then [] else LayoutLine(f, width, lines[0]) + WrapLines(f, width, lines[1..])
  }

  // ---------------------------------------------------------------------------
  // Properties of the reference re-flow
  // ---------------------------------------------------------------------------

  /** The groups, read in order, are the pending group followed by the words. */
  lemma {:induction false} FlowConcat(f: Font, width: int, words: seq<string>, cur: seq<string>)
    ensures Concat(Flow(f, width, words, cur)) == cur + words
    decreases |words|
  {
    var out := Flow(f, width, words, cur);
    if |words| == 0 {
      if |cur| > 0 {
        assert Concat([cur]) == cur + Concat([]);
      }
    } else {
      var w := words[0];
      assert words == [w] + words[1..];
      if f.textWidth(Join(cur + [w], ' ')) > width {
        FlowConcat(f, width, words[1..], [w]);
        assert out[1..] == Flow(f, width, words[1..], [w]);
      } else {
        FlowConcat(f, width, words[1..], cur + [w]);
      }
    }
  }

  /** Every group holds words only. */
  lemma {:induction false} FlowAllWords(f: Font, width: int, words: seq<string>, cur: seq<string>)
    requires AllWords(words) && AllWords(cur)
    ensures forall i :: 0 <= i < |Flow(f, width, words, cur)| ==> AllWords(Flow(f, width, words, cur)[i])
    decreases |words|
  {
    if |words| > 0 {
      var w := words[0];
      if f.textWidth(Join(cur + [w], ' ')) > width {
        FlowAllWords(f, width, words[1..], [w]);
      } else {
        FlowAllWords(f, width, words[1..], cur + [w]);
      }
    }
  }

  /** A group of two or more words was accepted as a candidate, so it fits. */
  lemma {:induction false} FlowFits(f: Font, width: int, words: seq<string>, cur: seq<string>)
    requires |cur| >= 2 ==> f.textWidth(Join(cur, ' ')) <= width
    ensures forall i :: 0 <= i < |Flow(f, width, words, cur)| && |Flow(f, width, words, cur)[i]| >= 2 ==>
              f.textWidth(Join(Flow(f, width, words, cur)[i], ' ')) <= width
    decreases |words|
  {
    if |words| > 0 {
      var w := words[0];
      if f.textWidth(Join(cur + [w], ' ')) > width {
        FlowFits(f, width, words[1..], [w]);
      } else {
        FlowFits(f, width, words[1..], cur + [w]);
      }
    }
  }

  /** A non-empty pending group opens the first group, and no group is empty. */
  lemma {:induction false} FlowHead(f: Font, width: int, words: seq<string>, cur: seq<string>)
    requires |cur| > 0
    ensures var out := Flow(f, width, words, cur);
      |out| > 0 && |cur| <= |out[0]| && out[0][..|cur|] == cur
      && forall i :: 0 <= i < |out| ==> |out[i]| > 0
    decreases |words|
  {
    if |words| > 0 {
      var w := words[0];
      if f.textWidth(Join(cur + [w], ' ')) > width {
        FlowHead(f, width, words[1..], [w]);
      } else {
        FlowHead(f, width, words[1..], cur + [w]);
        assert (cur + [w])[..|cur|] == cur;
      }
    }
  }

  /** Group `i` was started because its first word did not fit after group `i - 1`. */
  predicate CommitForced(f: Font, width: int, out: seq<seq<string>>, i: int)
    requires 0 < i < |out|
  {
    |out[i]| > 0 && f.textWidth(Join(out[i - 1] + [out[i][0]], ' ')) > width
  }

  /** A group is committed only because the next group's first word did not fit after it. */
  lemma {:induction false} FlowGreedy(f: Font, width: int, words: seq<string>, cur: seq<string>)
    ensures forall i :: 0 < i < |Flow(f, width, words, cur)| ==> CommitForced(f, width, Flow(f, width, words, cur), i)
    decreases |words|
  {
    if |words| > 0 {
      var w := words[0];
      var out := Flow(f, width, words, cur);
      if f.textWidth(Join(cur + [w], ' ')) > width {
        var rest := Flow(f, width, words[1..], [w]);
        FlowGreedy(f, width, words[1..], [w]);
        FlowHead(f, width, words[1..], [w]);
        assert rest[0][..1] == [w];
        assert out == [cur] + rest;
        forall i | 0 < i < |out|
          ensures CommitForced(f, width, out, i)
        {
          if i > 1 {
            assert CommitForced(f, width, rest, i - 1);
            assert out[i - 1] == rest[i - 2] && out[i] == rest[i - 1];
          }
        }
      } else {
        assert out == Flow(f, width, words[1..], cur + [w]);
        FlowGreedy(f, width, words[1..], cur + [w]);
      }
    }
  }

  /**
    Every candidate the group went through was accepted: each prefix of two
    or more of its words, joined by single spaces, fits.
   */
  predicate PrefixesFit(f: Font, width: int, g: seq<string>) {
    forall k :: 2 <= k <= |g| ==> f.textWidth(Join(g[..k], ' ')) <= width
  }

  /** A word joins a group only when the candidate it makes fits. */
  lemma {:induction false} FlowPrefixFits(f: Font, width: int, words: seq<string>, cur: seq<string>)
    requires PrefixesFit(f, width, cur)
    ensures forall i :: 0 <= i < |Flow(f, width, words, cur)| ==> PrefixesFit(f, width, Flow(f, width, words, cur)[i])
    decreases |words|
  {
    if |words| > 0 {
      var w := words[0];
      var c2 := cur + [w];
      if f.textWidth(Join(c2, ' ')) > width {
        FlowPrefixFits(f, width, words[1..], [w]);
      } else {
        forall k | 2 <= k <= |c2|
          ensures f.textWidth(Join(c2[..k], ' ')) <= width
        {
          if k <= |cur| {
            assert c2[..k] == cur[..k];
          } else {
            assert c2[..k] == c2;
          }
        }
        FlowPrefixFits(f, width, words[1..], c2);
      }
    }
  }

  /**
    Started from nothing, the re-flow commits an empty group exactly when the
    first word alone is too wide; that empty group comes first and the next
    group starts with the first word. No words, no groups.
   */
  lemma FlowEmptyGroup(f: Font, width: int, words: seq<string>)
    ensures var out := Flow(f, width, words, []);
      && (|words| == 0 ==> out == [])
      && ([] in out <==> |words| > 0 && f.textWidth(words[0]) > width)
      && ([] in out ==> |out| >= 2 && out[0] == [] && |out[1]| > 0 && out[1][0] == words[0])
  {
    var out := Flow(f, width, words, []);
    if |words| > 0 {
      var w := words[0];
      assert [] + [w] == [w];
      FlowHead(f, width, words[1..], [w]);
      var rest := Flow(f, width, words[1..], [w]);
      assert rest[0][..1] == [w];
      if f.textWidth(w) > width {
        assert out == [[]] + rest;
      } else {
        assert out == rest;
      }
    }
  }

  // ---------------------------------------------------------------------------
  // The same properties of the re-flowed lines, as strings
  // ---------------------------------------------------------------------------

  /** Appending a word to a joined group is the candidate the loop builds. */
  lemma JoinCandidate(group: seq<string>, w: string)
    requires AllWords(group)
    ensures Join(group + [w], ' ') == Candidate(Join(group, ' '), w)
  {
    JoinWordsEmpty(group);
    if |group| > 0 {
      JoinSnoc(group, w, ' ');
    } else {
      assert group + [w] == [w];
    }
  }

  /** The words of the re-flowed lines, read in order, are the words of the line. */
  lemma {:induction false} WordsOfJoinAll(groups: seq<seq<string>>)
    requires forall i :: 0 <= i < |groups| ==> AllWords(groups[i])
    ensures WordsOfLines(JoinAll(groups)) == Concat(groups)
    decreases |groups|
  {
    if |groups| > 0 {
      WordsOfJoinedWords(groups[0]);
      assert JoinAll(groups)[1..] == JoinAll(groups[1..]);
      WordsOfJoinAll(groups[1..]);
    }
  }

  /**
    Re-flowing a hard line neither splits, drops, duplicates nor reorders a
    word, and every line it produces is its own words separated by single
    spaces.
   */
  lemma ReflowPreservesWords(f: Font, width: int, line: string)
    ensures WordsOfLines(Reflow(f, width, line)) == Words(line)
    ensures forall c :: c in Reflow(f, width, line) ==> c == Join(Words(c), ' ')
  {
    var groups := Flow(f, width, Words(line), []);
    WordsAreWords(line);
    FlowAllWords(f, width, Words(line), []);
    FlowConcat(f, width, Words(line), []);
    WordsOfJoinAll(groups);
    forall c | c in Reflow(f, width, line)
      ensures c == Join(Words(c), ' ')
    {
      var i :| 0 <= i < |groups| && c == Join(groups[i], ' ');
      WordsOfJoinedWords(groups[i]);
    }
  }

  /** Only a line holding at most one word may be wider than the limit. */
  lemma ReflowFits(f: Font, width: int, line: string)
    ensures forall c :: c in Reflow(f, width, line) && f.textWidth(c) > width ==> |Words(c)| <= 1
  {
    var groups := Flow(f, width, Words(line), []);
    WordsAreWords(line);
    FlowAllWords(f, width, Words(line), []);
    FlowFits(f, width, Words(line), []);
    forall c | c in Reflow(f, width, line) && f.textWidth(c) > width
      ensures |Words(c)| <= 1
    {
      var i :| 0 <= i < |groups| && c == Join(groups[i], ' ');
      WordsOfJoinedWords(groups[i]);
    }
  }

  /**
    Greedy: a line is committed only when the first word of the next line,
    appended to it, makes the candidate too wide.
   */
  lemma ReflowGreedy(f: Font, width: int, line: string)
    ensures var chunks := Reflow(f, width, line);
      forall i :: 0 < i < |chunks| ==>
        |Words(chunks[i])| > 0 && f.textWidth(Candidate(chunks[i - 1], Words(chunks[i])[0])) > width
  {
    var groups := Flow(f, width, Words(line), []);
    var chunks := Reflow(f, width, line);
    WordsAreWords(line);
    FlowAllWords(f, width, Words(line), []);
    FlowGreedy(f, width, Words(line), []);
    forall i | 0 < i < |chunks|
      ensures |Words(chunks[i])| > 0 && f.textWidth(Candidate(chunks[i - 1], Words(chunks[i])[0])) > width
    {
      assert CommitForced(f, width, groups, i);
      WordsOfJoinedWords(groups[i]);
      JoinCandidate(groups[i - 1], groups[i][0]);
    }
  }

  /**
    The converse of greedy: every candidate `new_line` a line went through
    before it was committed fitted, so each run of its first two or more
    words, joined by single spaces, is within the limit.
   */
  lemma ReflowPrefixesFit(f: Font, width: int, line: string)
    ensures forall c :: c in Reflow(f, width, line) ==> PrefixesFit(f, width, Words(c))
  {
    var groups := Flow(f, width, Words(line), []);
    WordsAreWords(line);
    FlowAllWords(f, width, Words(line), []);
    FlowPrefixFits(f, width, Words(line), []);
    forall c | c in Reflow(f, width, line)
      ensures PrefixesFit(f, width, Words(c))
    {
      var i :| 0 <= i < |groups| && c == Join(groups[i], ' ');
      WordsOfJoinedWords(groups[i]);
    }
  }

  /**
    The empty line of an overflowing hard line: it is emitted exactly when the
    first word alone is too wide, it comes first, and the next line starts
    with that word. A hard line without words yields no lines at all.
   */
  lemma ReflowBlankLine(f: Font, width: int, line: string)
    ensures var chunks := Reflow(f, width, line);
      && (|Words(line)| == 0 ==> chunks == [])
      && ("" in chunks <==> |Words(line)| > 0 && f.textWidth(Words(line)[0]) > width)
      && ("" in chunks ==> |chunks| >= 2 && chunks[0] == "" && |Words(chunks[1])| > 0
                            && Words(chunks[1])[0] == Words(line)[0])
  {
    var words := Words(line);
    var groups := Flow(f, width, words, []);
    var chunks := Reflow(f, width, line);
    WordsAreWords(line);
    FlowAllWords(f, width, words, []);
    FlowEmptyGroup(f, width, words);
    if "" in chunks {
      var i :| 0 <= i < |chunks| && chunks[i] == "";
      JoinWordsEmpty(groups[i]);
      assert [] in groups;
      WordsOfJoinedWords(groups[1]);
    }
    if [] in groups {
      assert chunks[0] == "";
    }
  }

  // ---------------------------------------------------------------------------
  // Hard lines and the whole text
  // ---------------------------------------------------------------------------

  /** Wrapping distributes over concatenation of hard lines. */
  lemma {:induction false} WrapLinesAppend(f: Font, width: int, a: seq<string>, b: seq<string>)
    ensures WrapLines(f, width, a + b) == WrapLines(f, width, a) + WrapLines(f, width, b)
    decreases |a|
  {
    if |a| == 0 {
      assert a + b == b;
    } else {
      assert (a + b)[1..] == a[1..] + b;
      WrapLinesAppend(f, width, a[1..], b);
    }
  }

  /** Wrapping one more hard line appends that line's block. */
  lemma WrapLinesSnoc(f: Font, width: int, lines: seq<string>, i: nat)
    requires i < |lines|
    ensures WrapLines(f, width, lines[..i + 1]) == WrapLines(f, width, lines[..i]) + LayoutLine(f, width, lines[i])
  {
    WrapLinesAppend(f, width, lines[..i], [lines[i]]);
    assert lines[..i + 1] == lines[..i] + [lines[i]];
    assert WrapLines(f, width, [lines[i]]) == LayoutLine(f, width, lines[i]) + WrapLines(f, width, []);
  }

  /**
    Each hard line contributes its own block of output lines, in hard-line
    order; a hard line that fits is its block, verbatim and alone.
   */
  lemma HardLineBlock(f: Font, width: int, lines: seq<string>, i: nat)
    requires i < |lines|
    ensures WrapLines(f, width, lines)
            == WrapLines(f, width, lines[..i]) + LayoutLine(f, width, lines[i]) + WrapLines(f, width, lines[i + 1..])
    ensures f.textWidth(lines[i]) <= width ==>
              WrapLines(f, width, lines)
              == WrapLines(f, width, lines[..i]) + [lines[i]] + WrapLines(f, width, lines[i + 1..])
  {
    assert lines == lines[..i] + ([lines[i]] + lines[i + 1..]);
    WrapLinesAppend(f, width, lines[..i], [lines[i]] + lines[i + 1..]);
    assert ([lines[i]] + lines[i + 1..])[1..] == lines[i + 1..];
  }

  /** Wrapping hard lines keeps their words, in order. */
  lemma {:induction false} WrapLinesWords(f: Font, width: int, lines: seq<string>)
    ensures WordsOfLines(WrapLines(f, width, lines)) == WordsOfLines(lines)
    decreases |lines|
  {
    if |lines| > 0 {
      var block := LayoutLine(f, width, lines[0]);
      WordsOfLinesAppend(block, WrapLines(f, width, lines[1..]));
      WrapLinesWords(f, width, lines[1..]);
      if f.textWidth(lines[0]) > width {
        ReflowPreservesWords(f, width, lines[0]);
      } else {
        assert WordsOfLines(block) == Words(lines[0]) + WordsOfLines([]);
      }
    }
  }

  /** No output line holds a line break. */
  lemma {:induction false} WrapLinesNoBreaks(f: Font, width: int, lines: seq<string>)
    requires forall i :: 0 <= i < |lines| ==> NoBreak(lines[i])
    ensures forall i :: 0 <= i < |WrapLines(f, width, lines)| ==> NoBreak(WrapLines(f, width, lines)[i])
    decreases |lines|
  {
    if |lines| > 0 {
      WrapLinesNoBreaks(f, width, lines[1..]);
      if f.textWidth(lines[0]) > width {
        var groups := Flow(f, width, Words(lines[0]), []);
        WordsAreWords(lines[0]);
        FlowAllWords(f, width, Words(lines[0]), []);
        forall i | 0 <= i < |groups|
          ensures NoBreak(Join(groups[i], ' '))
        {
          JoinedWordsNoBreak(groups[i]);
        }
      }
    }
  }

  /**
    `word_wrap`: the text itself when its bounding box fits (equality fits),
    otherwise the laid-out hard lines joined by line breaks. Either way the
    words of the result are exactly the words of the text.
   */
  function WordWrap(f: Font, width: int, text: string): (r: string)
    ensures MultiWidth(f, text) <= width ==> r == text
    ensures Words(r) == Words(text)
  {
    if MultiWidth(f, text) > width then
      var lines := SplitLines(text);
      var out := WrapLines(f, width, lines);
      WordsOfJoin(out, '\n');
      WrapLinesWords(f, width, lines);
      WordsOfSplitLines(text);
      Join(out, '\n')
    else
      text
  }

  /**
    When wrapping happens, the lines of the result are exactly the laid-out
    hard lines, so no two hard lines are merged (unless the last one is empty,
    which the splitting of the result cannot see).
   */
  lemma WrappedLinesRecovered(f: Font, width: int, text: string)
    requires MultiWidth(f, text) > width
    requires var out := WrapLines(f, width, SplitLines(text)); |out| == 0 || out[|out| - 1] != ""
    ensures SplitLines(WordWrap(f, width, text)) == WrapLines(f, width, SplitLines(text))
  {
    SplitLinesNoBreaks(text);
    WrapLinesNoBreaks(f, width, SplitLines(text));
    SplitJoinLines(WrapLines(f, width, SplitLines(text)));
  }

  /**
    The inner loop of `word_wrap` step by step: the running `new_line` and
    `last_line` strings, the single-space join, and the commit of `last_line`
    when the candidate overflows. It computes exactly `Reflow`.
   */
  method ReflowLoop(f: Font, width: int, line: string) returns (chunks: seq<string>)
    ensures chunks == Reflow(f, width, line)
  {
    var words := Words(line);
    WordsAreWords(line);
    chunks := [];
    ghost var group: seq<string> := [];
    var newLine := "";
    var lastLine := newLine;
    var k := 0;
    while k < |words|
      invariant 0 <= k <= |words|
      invariant AllWords(group)
      invariant newLine == Join(group, ' ') && lastLine == newLine
      invariant chunks + JoinAll(Flow(f, width, words[k..], group)) == Reflow(f, width, line)
    {
      var word := words[k];
      JoinCandidate(group, word);
      JoinWordsEmpty(group);
      assert words[k..][1..] == words[k + 1..];
      if |newLine| > 0 {
        newLine := newLine + " ";
      }
      newLine := newLine + word;
      assert newLine == Join(group + [word], ' ');
      if f.textWidth(newLine) > width {
        var rest := Flow(f, width, words[k + 1..], [word]);
        assert Flow(f, width, words[k..], group) == [group] + rest;
        assert JoinAll([group] + rest) == [lastLine] + JoinAll(rest);
        chunks := chunks + [lastLine];
        newLine := word;
        group := [word];
      } else {
        assert Flow(f, width, words[k..], group) == Flow(f, width, words[k + 1..], group + [word]);
        group := group + [word];
      }
      lastLine := newLine;
      k := k + 1;
    }
    JoinWordsEmpty(group);
    assert words[k..] == [];
    if |lastLine| > 0 {
      chunks := chunks + [lastLine];
    }
  }

  /**
    The outer loop of `word_wrap`: the whole-text check, then one block per
    hard line, joined by line breaks. It computes exactly `WordWrap`.
   */
  method WordWrapLoop(f: Font, width: int, text: string) returns (r: string)
    ensures r == WordWrap(f, width, text)
  {
    if MultiWidth(f, text) <= width {
      return text;
    }
    var lines := SplitLines(text);
    var wrapped: seq<string> := [];
    var i := 0;
    while i < |lines|
      invariant 0 <= i <= |lines|
      invariant wrapped == WrapLines(f, width, lines[..i])
    {
      var line := lines[i];
      WrapLinesSnoc(f, width, lines, i);
      if f.textWidth(line) > width {
        var chunks := ReflowLoop(f, width, line);
        wrapped := wrapped + chunks;
      } else {
        wrapped := wrapped + [line];
      }
      i := i + 1;
    }
    assert lines[..i] == lines;
    r := Join(wrapped, '\n');
  }
}

=== FILE: wrappers.dfy ===
/** Absent values, and the exceptions the rendering code raises. */
module Wrappers {

  /** Python's `Optional[T]`: a value, or `None`. */
  datatype Option<T> = None | Some(value: T)

  /** A call that either returns a value or raises one of the errors below. */
  datatype Result<T> = Ok(value: T) | Err(error: Error)

  /** The exceptions raised on the way from a request to rendered media. */
  datatype Error =
    | UnknownStyle(id: string)        // no catalog entry has the requested id
    | BadExtension(ext: string)       // the requested media type is neither png nor mp4
    | UnsupportedMode(mode: string)   // the canvas is neither RGB nor RGBA
    | EncoderFailed(code: int)        // the video encoder exited with a non-zero status
}
